=== FILE: README.md ===
# smartmarkers questionnaire engine in Dafny

This project models the logic behind the smartmarkers questionnaire forms: how FHIR
`Questionnaire` items are shown or hidden, how answers are stored, and how the stored
answers become a `QuestionnaireResponse`. It covers the two pure parts of the system:

- the answer engine of `smartmarkers-lib/components/fields/utils.ts`:
  - the answer store (`getFormValue`, `setFormValue`);
  - the enableWhen evaluator (`compareValues`, `getExpectedRuleValue`, `checkRule`,
    `checkEnableRules`);
  - the active-question filter and its counter;
  - `getLabel` and `extractChoices`;
  - the response builder (`getResponse`, `getResponseItems`, `getResponseItemAnswers`);
- the decisions in `src/components/fields/ChoiceField.tsx` that do not depend on rendering:
  - `calculateChoiceType`;
  - the fetch URL that `renderAutocomplete` picks;
  - the value that `onChange` stores for a choice question.

The program works on JavaScript values. The model makes the language's rules explicit:

- `JsValues.JsValue` is a small value universe with `undefined`, `null`, booleans,
  integers, strings, arrays and opaque objects.
- Truthiness, strict equality and loose equality (`==`, which coerces types) are
  written out as ECMAScript defines them.
- So are the relational operators `<`, `>`, `<=` and `>=`.

A thrown `TypeError` becomes the `Err` case of a `Result`. There are three such throws:

- `forEach` on a value that is not an array;
- `forEach` on a missing child list;
- `filter` on a non-array.

Modules, one per file:

| module | file | models |
|---|---|---|
| `Wrappers` | wrappers.dfy | `Option` and `Result` |
| `JsNumbers` | js_numbers.dfy | integer printing (`toString`) and ECMAScript StringToNumber over integers |
| `JsValues` | js_values.dfy | JavaScript values, truthiness, `===`, `==`, `<` and friends |
| `JsArrays` | js_arrays.dfy | `Array.prototype.find` and `Array.prototype.filter` |
| `Models` | models.dfy | the Questionnaire item tree, enableWhen rules, extensions, codings |
| `FormStore` | form_store.dfy | the answer store |
| `EnableWhen` | enable_when.dfy | the enableWhen evaluator |
| `ActiveQuestions` | active_questions.dfy | the active-question filter and counter |
| `Labels` | labels.dfy | `getLabel` |
| `Choices` | choices.dfy | `extractChoices` |
| `ResponseBuilder` | response_builder.dfy | the QuestionnaireResponse builder |
| `ChoiceField` | choice_field.dfy | the choice-field decisions |

Behaviour of the code worth noting, which the model follows:

- `getExpectedRuleValue` checks `answerCoding` before `answerBoolean`. It then tests
  decimal, integer, quantity and string for truthiness, so an `answerInteger` of 0
  alone yields `undefined`.
- `Exists` compares truthiness (`!!value`), not presence. A stored `false`, `0` or `""`
  therefore counts as "does not exist".
- A repeating item whose stored value is present but not an array does not get a single
  answer: the code calls `forEach` on that value and throws.
- A Group, Question or Display item without a child list does not yield an empty nested
  list: the code calls `forEach` on `undefined` and throws.

## Model

| member | source | states |
|---|---|---|
| JsNumbers.NatToString | smartmarkers-lib/components/fields/utils.ts:293 | the printed id of a counter is a non-empty digit string without a leading zero (unless the counter is 0) |
| JsNumbers.NumberRoundTrip | smartmarkers-lib/components/fields/utils.ts:309-316 | an integer printed with `toString` reads back as the same integer under StringToNumber |
| JsNumbers.IntToStringInjective | smartmarkers-lib/components/fields/utils.ts:309-316 | distinct counters get distinct ids |
| JsValues.StrictEq | smartmarkers-lib/components/fields/utils.ts:40 | `===` holds exactly when the two values are the same value |
| JsValues.LooseEq | smartmarkers-lib/components/fields/utils.ts:50 | `==` makes `null` and `undefined` equal to each other and to nothing else, and is implied by `===`; the number, string, boolean and array coercions are stated by the lemmas below |
| JsValues.LooseEqNumberString | smartmarkers-lib/components/fields/utils.ts:50 | a number and a string are `==` exactly when the string reads as that number, so a number equals its own printed form |
| JsValues.LooseEqArrayString | smartmarkers-lib/components/fields/utils.ts:50 | an array and a string are `==` exactly when the array's comma-joined form is that string, in both operand orders |
| JsValues.LooseEqBoolean | smartmarkers-lib/components/fields/utils.ts:50 | against a non-nullish, non-boolean value, `true` and `false` compare under `==` as 1 and 0 |
| JsValues.LooseEqSymmetric | smartmarkers-lib/components/fields/utils.ts:50 | `==` is symmetric across all type coercions |
| JsValues.NumberOrdering | smartmarkers-lib/components/fields/utils.ts:41-48 | on two numbers, `<`, `>`, `<=`, `>=` are integer comparison |
| JsValues.StringOrdering | smartmarkers-lib/components/fields/utils.ts:41-48 | on two strings, the relational operators are lexicographic comparison |
| JsValues.NullishOrdering | smartmarkers-lib/components/fields/utils.ts:41-48 | `undefined` is ordered against nothing; `null` orders exactly like 0 |
| JsValues.OrderingDuality | smartmarkers-lib/components/fields/utils.ts:41-48 | where defined, `>=` negates `<` and `<=` negates `>`; where undefined (NaN), `<` and `>=` are both false |
| JsValues.SelfComparison | smartmarkers-lib/components/fields/utils.ts:41-48 | no value is strictly below or above itself; `v >= v` holds only when `v` is not NaN-like |
| JsArrays.Find | src/components/fields/ChoiceField.tsx:27-29 | `find` returns nothing iff no element passes, else the first passing element |
| JsArrays.Filter | src/components/fields/ChoiceField.tsx:116-118 | `filter` returns exactly the passing elements, as an order-preserving subsequence |
| JsArrays.FilterCounts | src/components/fields/ChoiceField.tsx:116-118 | `filter` keeps each passing value as often as it occurs and drops every other value |
| JsArrays.FilterKeepsLength | src/components/fields/ChoiceField.tsx:119 | the filtered array is as long as the original iff every element passes |
| JsArrays.FilterSnoc | smartmarkers-lib/components/fields/utils.ts:118-122 | filtering one more element appends it exactly when it passes |
| JsArrays.FilterAllPass | smartmarkers-lib/components/fields/utils.ts:118-122 | when every element passes, filtering is the identity |
| JsArrays.CountWhereIsFilterLength | smartmarkers-lib/components/fields/utils.ts:98-125 | counting the passing elements one by one gives the length of the filtered array |
| FormStore.GetFormValue | smartmarkers-lib/components/fields/utils.ts:127-134 | a stored entry is returned as is; a missing store or key reads as `{touched: false, value: null, error: null}`, so only a stored entry can read as touched |
| FormStore.SetFormValue | smartmarkers-lib/components/fields/utils.ts:136-147 | the new store maps the key to `{touched: true, value, error: null}`, adds no other key, and keeps every other entry; a missing store yields a single-entry store |
| FormStore.GetAfterSet | smartmarkers-lib/components/fields/utils.ts:127-147 | reading back a just-set key gives the value, touched and without error; every other key reads as before |
| FormStore.AbsentFieldIsNull | smartmarkers-lib/components/fields/utils.ts:131-132 | a missing store or key reads as `{touched: false, value: null, error: null}`: `null`, never `undefined` |
| FormStore.SetTwice | smartmarkers-lib/components/fields/utils.ts:136-147 | setting a key twice is the same as setting it once to the second value |
| EnableWhen.CompareValues | smartmarkers-lib/components/fields/utils.ts:32-56 | a stored `undefined` or an unrecognised operator never matches; Equals is strict equality; NotEquals is loose (`null` differs only from non-nullish values); Exists holds iff the stored value and the expected value have the same truthiness; on numbers the ordering operators compare integers |
| EnableWhen.FirstTruthy | smartmarkers-lib/components/fields/utils.ts:63-71 | the result is `undefined` iff no candidate is truthy, else the first truthy candidate in list order |
| EnableWhen.ExpectedRuleValue | smartmarkers-lib/components/fields/utils.ts:58-73 | a present answerCoding gives its code; otherwise an own answerBoolean, even `false`; otherwise the first truthy of decimal, integer, quantity, string; otherwise `undefined` |
| EnableWhen.CheckRule | smartmarkers-lib/components/fields/utils.ts:75-79 | the rule's operator applied to the question's stored value, or to `null` when nothing is stored, and to the rule's expected value; an unrecognised operator never holds |
| EnableWhen.AnyRuleHolds | smartmarkers-lib/components/fields/utils.ts:89-92 | true iff some rule of the list holds |
| EnableWhen.CheckEnableRules | smartmarkers-lib/components/fields/utils.ts:81-96 | a missing or empty rule list enables; a non-empty list enables iff at least one rule holds |
| EnableWhen.CheckEnableRulesLoop | smartmarkers-lib/components/fields/utils.ts:85-95 | the loop returns the same verdict, has evaluated only failing rules before the last one it looked at, looks at no rule of a missing list and at least one rule of a non-empty list, stops at the first rule that holds, and looks at every rule when none holds |
| EnableWhen.NotEqualsArrayString | smartmarkers-lib/components/fields/utils.ts:49-50 | NotEquals on a stored array (a repeating choice answer) against an expected string holds exactly when the comma-joined array differs from it, so `["Y"] != "Y"` is false |
| EnableWhen.EnableRulesConcat | smartmarkers-lib/components/fields/utils.ts:81-96 | two non-empty rule lists together enable an item iff either one alone does |
| EnableWhen.UnansweredQuestion | smartmarkers-lib/components/fields/utils.ts:75-79 | an Exists rule on an unanswered question holds iff the expected value is falsy |
| EnableWhen.StoredUndefinedFailsEveryRule | smartmarkers-lib/components/fields/utils.ts:37 | a stored value that is literally `undefined` fails every rule |
| EnableWhen.NotEqualsNullUndefined | smartmarkers-lib/components/fields/utils.ts:49-50 | NotEquals with an unextractable expected value never fires on an unanswered question, since `null != undefined` is false |
| EnableWhen.ZeroIntegerExpectsUndefined | smartmarkers-lib/components/fields/utils.ts:65-66 | an `answerInteger` of 0 with no other answer property yields `undefined` |
| ActiveQuestions.GetActiveQuestions | smartmarkers-lib/components/fields/utils.ts:112-125 | the result is an order-preserving subsequence holding exactly the enabled items, each as often as it occurs; it is empty for a missing list |
| ActiveQuestions.GetActiveQuestionsCount | smartmarkers-lib/components/fields/utils.ts:98-110 | the count always equals the number of active questions |
| ActiveQuestions.UnconditionalItemsAllActive | smartmarkers-lib/components/fields/utils.ts:105 | items without rules are all active, so the active list is the whole list |
| Labels.CodeLabel | smartmarkers-lib/components/fields/utils.ts:154-160 | a coding contributes its display when that is non-empty, else its code when that is non-empty, and nothing exactly when neither is |
| Labels.JoinCodeLabels | smartmarkers-lib/components/fields/utils.ts:152-161 | the accumulated label is the contributions joined by ", ", and is empty iff there are none |
| Labels.GetLabel | smartmarkers-lib/components/fields/utils.ts:149-166 | a non-empty text wins; otherwise the joined coding labels; otherwise a non-empty linkId; otherwise no label; a label is never empty |
| Choices.ExtractChoices | smartmarkers-lib/components/fields/utils.ts:168-185 | without answerOption, Yes/Y, No/N, Don't know/asked-unknown in that order; otherwise one choice per option, in order, with the coding's code and display, or the NoOptions sentinel when the option lacks a coding |
| Choices.SentinelMarksMissingCodings | smartmarkers-lib/components/fields/utils.ts:176-183 | an option with a coding whose code is not "NoOptions" never yields the sentinel |
| ResponseBuilder.ValuePropOf | smartmarkers-lib/components/fields/utils.ts:249-298 | typed items get a value property; structural and unlisted types get none; Choice and OpenChoice share valueCoding; Url maps to valueUri |
| ResponseBuilder.NumberedAnswers | smartmarkers-lib/components/fields/utils.ts:308-317 | one answer per value, in order, with ids counting up from the start value and an empty extension |
| ResponseBuilder.ResponseItemAnswers | smartmarkers-lib/components/fields/utils.ts:240-328 | structural items get exactly one answer `{id "1", extension [], nested items}` and throw without a child list; typed items without a stored value get none; repeating ones get one answer per array element, numbered "1".."n", and throw on a non-array; non-repeating ones get a single answer "1"; unlisted types get none |
| ResponseBuilder.ResponseItems | smartmarkers-lib/components/fields/utils.ts:205-238 | one response item per item, in order, with linkId, id, definition, text and extension copied; the nested item list is non-empty only for a non-structural item with non-empty children |
| ResponseBuilder.GetResponse | smartmarkers-lib/components/fields/utils.ts:187-203 | the response has resourceType "QuestionnaireResponse", status InProgress, the questionnaire itself, and exactly the response items built from the top-level items (none without an item list); it fails exactly when building them throws |
| ResponseBuilder.GetResponseSucceeds | smartmarkers-lib/components/fields/utils.ts:187-238 | a questionnaire with an item list yields a response exactly when every top-level item tree is buildable |
| ResponseBuilder.ResponseItemsSucceed | smartmarkers-lib/components/fields/utils.ts:205-238 | building throws exactly when some item in the walked trees is a structural item without a child list, or a repeating typed item storing a non-nullish non-array |
| ResponseBuilder.ItemSucceeds | smartmarkers-lib/components/fields/utils.ts:289-325 | an item's answers build without throwing iff its own conditions hold and, for a structural item, its subtree is buildable |
| ResponseBuilder.AnswerIdsArePositions | smartmarkers-lib/components/fields/utils.ts:308-317 | the id of the i-th answer of a repeating item reads back as i + 1 |
| ChoiceField.FindsCode | src/components/fields/ChoiceField.tsx:36-41 | the `find` over an extension's codings succeeds iff some coding has the code |
| ChoiceField.CalculateChoiceType | src/components/fields/ChoiceField.tsx:34-62 | no extensions gives Group; a drop-down coding anywhere gives DropDown, even beside autocomplete; otherwise Autocomplete iff some autocomplete coding, else Group |
| ChoiceField.AutocompleteUrl | src/components/fields/ChoiceField.tsx:27-30 | the fetch URL is the valueUri of the first extension whose url is the externally-defined StructureDefinition URL, or "" when there is none or its valueUri is empty |
| ChoiceField.NewValue | src/components/fields/ChoiceField.tsx:111-129 | non-repeating: the incoming value; repeating with a falsy old value: `[value]`; old array containing the value: every copy removed, the rest kept in order; old array without it: value appended; truthy non-array: throws |
| ChoiceField.ToggleMembership | src/components/fields/ChoiceField.tsx:115-123 | on a repeating item, a pick toggles whether the value is in the stored array |
| ChoiceField.ToggleTwiceRestores | src/components/fields/ChoiceField.tsx:115-123 | picking an absent value twice restores the original array |
| ChoiceField.OnChange | src/components/fields/ChoiceField.tsx:111-135 | the field then holds the new value, touched and without error; every other field is unchanged; it throws exactly when the new-value computation does |
| ChoiceField.FirstPickOnRepeatingItem | src/components/fields/ChoiceField.tsx:112-126 | the first pick on an unanswered repeating item stores a one-element array |

## Left out

- Rendering is not modelled. This covers the React and native-base components, `useState`
  and `useEffect`, and the asynchronous `renderChoice` and `Autocomplete` fetch: all of it
  is UI and network I/O. The asynchronous `extractChoices` called at
  `src/components/fields/ChoiceField.tsx:77-81` is not part of this model, because its
  definition is not available; only the synchronous one in `utils.ts` is modelled.
- The diagnostic `console.warn` (utils.ts:72) and `console.log` (utils.ts:301-307) are
  left out. They only write logs.
- `smartmarkers-lib/components/Form.tsx` is component wiring. The `validate` it calls is
  not part of this model; `WizardForm` is presentation.
- `smartmarkers-lib/models/Narrative.ts` holds type declarations only.
- Numbers are integers. Floating point, fractional decimals and NaN as a stored value are
  not modelled; NaN appears only as the "undefined" outcome of a comparison.
- JsNumbers.IntToString spells every integer in plain decimal. JavaScript switches to
  exponent form ("1e+21") at magnitude 10^21, and integers above 2^53 are not exact JS
  numbers. Answer ids stay far below that; a comparison that prints a larger number is not
  modelled faithfully.
- StringToNumber recognises optional white space, an optional sign and decimal digits.
  Fractions, exponents, hexadecimal and `Infinity` read as NaN in the model.
- Relational string comparison works on Dafny characters, which are Unicode scalar values.
  JavaScript compares UTF-16 code units. The two orders differ only for characters outside
  the Basic Multilingual Plane.
- JsValues.StrictEq: arrays are compared by their contents, because the model has no heap.
  JavaScript's `===` compares array references. This only matters when a stored array is
  compared with an expected value or an incoming choice that is itself an array.
- Opaque objects (`Obj`) are plain objects. They have no `forEach`, `filter`, or custom
  `valueOf`/`toString`, and they print as "[object Object]".
- The answer store is a map from linkId. Keys inherited from `Object.prototype`, such as
  `"toString"`, are not modelled.
- A JSON `null` in an optional object property (`answerCoding`, `valueCoding`,
  `valueCodeableConcept`, `extension`, `answerOption`) is treated as absent.
- `repeats` is a boolean. The code only reads it through `!!item.repeats`.

=== FILE: active_questions.dfy ===
/** getActiveQuestions and getActiveQuestionsCount: the sibling items whose
    enableWhen currently passes. */
module ActiveQuestions {
  import opened Wrappers
  import opened JsArrays
  import opened Models
  import opened FormStore
  import opened EnableWhen

  /** The item's enableWhen rules pass against the store. */
  predicate IsActive(item: Item, formData: Option<FormData>) {
    CheckEnableRules(item.enableWhen, formData)
  }

  /** IsActive as the callback handed to the array methods. */
  function ActiveTest(formData: Option<FormData>): Item -> bool {
    x => IsActive(x, formData)
  }

  /** getActiveQuestions: the enabled items, in their original order, or
      nothing when the item list is missing. */
  function GetActiveQuestions(items: Option<seq<Item>>, formData: Option<FormData>): (r: seq<Item>)
    ensures items.None? ==> r == []
    ensures items.Some? ==> IsSubsequence(r, items.value)
    ensures items.Some? ==> forall x :: x in r <==> x in items.value && IsActive(x, formData)
    ensures items.Some? ==> forall x :: multiset(r)[x] == if IsActive(x, formData) then multiset(items.value)[x] else 0
  {
    if items.None? then []
    else
      FilterCounts(items.value, ActiveTest(formData));
      Filter(items.value, ActiveTest(formData))
  }

  /** getActiveQuestionsCount, as the counting loop it is written as: the
      count always equals the number of active questions. */
  method GetActiveQuestionsCount(items: Option<seq<Item>>, formData: Option<FormData>) returns (count: nat)
    ensures count == |GetActiveQuestions(items, formData)|
  {
    count := 0;
    if items.None? {
      return;
    }
    var xs := items.value;
    for i := 0 to |xs|
      invariant count == CountWhere(xs[..i], ActiveTest(formData))
    {
      assert xs[..i + 1][..i] == xs[..i];
      if IsActive(xs[i], formData) {
        count := count + 1;
      }
    }
    assert xs[..|xs|] == xs;
    CountWhereIsFilterLength(xs, ActiveTest(formData));
  }

  /** Items without enableWhen rules are always active: a list of such items
      is its own active list. */
  lemma UnconditionalItemsAllActive(items: seq<Item>, formData: Option<FormData>)
    requires forall i :: 0 <= i < |items| ==> items[i].enableWhen.None? || items[i].enableWhen == Some([])
    ensures GetActiveQuestions(Some(items), formData) == items
  {
    FilterAllPass(items, ActiveTest(formData));
  }
}

=== FILE: choice_field.dfy ===
/** The decisions ChoiceField makes apart from rendering: which widget a
    choice question uses, which URL an autocomplete fetches from, and the
    value stored when the user picks a choice. */
module ChoiceField {
  import opened Wrappers
  import opened JsValues
  import opened JsArrays
  import opened FormStore
  import Models

  const DropDownCode := "drop-down"
  const AutocompleteCode := "autocomplete"
  const ExternallyDefinedUrl := "http://hl7.org/fhir/StructureDefinition/questionnaire-externallydefined"

  /** The widget a choice question is rendered with; Group is the plain
      button list. */
  datatype ChoiceType = DropDown | Autocomplete | Group

  /** The extension holds a codeable concept with a coding whose code is
      `code`. */
  predicate CarriesCode(e: Models.Extension, code: string) {
    && e.valueCodeableConcept.Some?
    && e.valueCodeableConcept.value.coding.Some?
    && exists c :: c in e.valueCodeableConcept.value.coding.value && c.code == Some(code)
  }

  /** The test calculateChoiceType passes to `find`: the extension's
      codeable concept has a coding list and `find` locates `code` in it. */
  predicate FindsCode(e: Models.Extension, code: string)
    ensures FindsCode(e, code) <==> CarriesCode(e, code)
  {
    && e.valueCodeableConcept.Some?
    && e.valueCodeableConcept.value.coding.Some?
    && Find(e.valueCodeableConcept.value.coding.value, (c: Models.Coding) => c.code == Some(code)).Some?
  }

  /** calculateChoiceType: no extensions means the button list; otherwise
      a drop-down coding anywhere wins, then an autocomplete coding, and
      the button list is the fallback. */
  function CalculateChoiceType(item: Models.Item): (r: ChoiceType)
    ensures item.extension.None? ==> r == Group
    ensures item.extension.Some? ==>
              (r == DropDown <==> exists e :: e in item.extension.value && CarriesCode(e, DropDownCode))
    ensures item.extension.Some? ==>
              (r == Autocomplete <==>
                 && (forall e :: e in item.extension.value ==> !CarriesCode(e, DropDownCode))
                 && (exists e :: e in item.extension.value && CarriesCode(e, AutocompleteCode)))
  {
    match item.extension
    case None => Group
    case Some(extensions) =>
      if Find(extensions, e => FindsCode(e, DropDownCode)).Some? then DropDown
      else if Find(extensions, e => FindsCode(e, AutocompleteCode)).Some? then Autocomplete
      else Group
  }

  /** The test renderAutocomplete passes to `find`. */
  predicate IsExternallyDefined(e: Models.Extension) {
    e.url.Some? && |e.url.value| > 0 && e.url.value == ExternallyDefinedUrl
  }

  /** `valueUri || ""`. */
  function UriOrEmpty(uri: Option<string>): string {
    if uri.Some? && |uri.value| > 0 then uri.value else ""
  }

  /** The fetch URL of renderAutocomplete: the valueUri of the first
      extension whose url is the externally-defined StructureDefinition URL,
      or "" when there is none or its valueUri is missing or empty. */
  function AutocompleteUrl(item: Models.Item): (r: string)
    ensures item.extension.None? ==> r == ""
    ensures item.extension.Some? ==>
              var extensions := item.extension.value;
              || ((forall i :: 0 <= i < |extensions| ==> extensions[i].url != Some(ExternallyDefinedUrl)) && r == "")
              || (exists i :: 0 <= i < |extensions| && extensions[i].url == Some(ExternallyDefinedUrl)
                    && (forall j :: 0 <= j < i ==> extensions[j].url != Some(ExternallyDefinedUrl))
                    && r == UriOrEmpty(extensions[i].valueUri))
  {
    match item.extension
    case None => ""
    case Some(extensions) =>
      match Find(extensions, IsExternallyDefined)
      case None => ""
      case Some(e) => UriOrEmpty(e.valueUri)
  }

  /** The TypeError onChange throws when a repeating item's stored value is
      truthy but not an array (it has no `filter`). */
  datatype ChangeError = NotFilterable(oldValue: JsValue)

  /** The value onChange stores: for a non-repeating item the picked value
      itself; for a repeating item, a toggle over the stored array: remove
      every element identical to the picked value if there is one, append
      the value otherwise, and start a one-element array when nothing truthy
      is stored. */
  function NewValue(oldValue: JsValue, value: JsValue, repeats: bool): (r: Result<JsValue, ChangeError>)
    ensures !repeats ==> r == Ok(value)
    ensures repeats && !Truthy(oldValue) ==> r == Ok(Arr([value]))
    ensures repeats && Truthy(oldValue) && !oldValue.Arr? ==> r == Err(NotFilterable(oldValue))
    ensures repeats && oldValue.Arr? && value !in oldValue.elems ==> r == Ok(Arr(oldValue.elems + [value]))
    ensures repeats && oldValue.Arr? && value in oldValue.elems ==>
              && r.Ok? && r.value.Arr?
              && value !in r.value.elems
              && IsSubsequence(r.value.elems, oldValue.elems)
              && forall x :: x != value ==> multiset(r.value.elems)[x] == multiset(oldValue.elems)[x]
  {
    if repeats then
      if Truthy(oldValue) then
        if oldValue.Arr? then
          var kept := Filter(oldValue.elems, el => !StrictEq(el, value));
          FilterKeepsLength(oldValue.elems, el => !StrictEq(el, value));
          FilterCounts(oldValue.elems, el => !StrictEq(el, value));
          if |kept| < |oldValue.elems| then Ok(Arr(kept)) else Ok(Arr(oldValue.elems + [value]))
        else Err(NotFilterable(oldValue))
      else Ok(Arr([value]))
    else Ok(value)
  }

  /** For a repeating item holding an array, picking a value toggles its
      membership. */
  lemma ToggleMembership(elems: seq<JsValue>, value: JsValue)
    ensures NewValue(Arr(elems), value, true).Ok?
    ensures value in NewValue(Arr(elems), value, true).value.elems <==> value !in elems
  {
  }

  /** Picking a value that is not in the stored array, and then picking it
      again, restores the array. */
  lemma ToggleTwiceRestores(elems: seq<JsValue>, value: JsValue)
    requires value !in elems
    ensures NewValue(NewValue(Arr(elems), value, true).value, value, true) == Ok(Arr(elems))
  {
    var notValue := el => !StrictEq(el, value);
    FilterSnoc(elems, value, notValue);
    FilterAllPass(elems, notValue);
  }

  /** onChange: reads the item's stored value, computes the new value and
      stores it, touched and error-free, leaving every other field as it
      was. */
  function OnChange(formData: Option<FormData>, item: Models.Item, value: JsValue): (r: Result<FormData, ChangeError>)
    ensures r.Ok? <==> NewValue(GetFormValue(formData, item.linkId).value, value, item.repeats).Ok?
    ensures r.Ok? ==> GetFormValue(Some(r.value), item.linkId)
                      == FieldData(true, NewValue(GetFormValue(formData, item.linkId).value, value, item.repeats).value, None)
    ensures r.Ok? ==> forall k :: k != item.linkId ==> GetFormValue(Some(r.value), k) == GetFormValue(formData, k)
  {
    var oldValue := GetFormValue(formData, item.linkId).value;
    match NewValue(oldValue, value, item.repeats)
    case Err(e) => Err(e)
    case Ok(newValue) => Ok(SetFormValue(formData, item.linkId, newValue))
  }

  /** The first pick on a repeating item that has no stored entry creates a
      one-element array (the missing entry reads as the falsy `null`). */
  lemma FirstPickOnRepeatingItem(formData: Option<FormData>, item: Models.Item, value: JsValue)
    requires item.repeats
    requires formData.Some? ==> item.linkId !in formData.value
    ensures OnChange(formData, item, value).Ok?
    ensures GetFormValue(Some(OnChange(formData, item, value).value), item.linkId).value == Arr([value])
  {
  }
}

=== FILE: choices.dfy ===
/** extractChoices: the options offered for a choice question. */
module Choices {
  import opened Wrappers
  import opened JsValues
  import opened Models

  /** GroupItem: the `{label, value}` pair a choice widget shows. */
  datatype GroupItem = GroupItem(labelText: JsValue, value: JsValue)

  /** DEFAULT_CHOICES: Yes / No / Don't know. */
  const DefaultChoices: seq<GroupItem> := [
    GroupItem(Str("Yes"), Str("Y")),
    GroupItem(Str("No"), Str("N")),
    GroupItem(Str("Don't know"), Str("asked-unknown"))
  ]

  /** Stands in for an answer option that has no valueCoding. */
  const NoOptions := GroupItem(Str("NoOptions"), Str("NoOptions"))

  function OptionChoice(option: AnswerOption): GroupItem {
    match option.valueCoding
    case Some(coding) => GroupItem(OptionalString(coding.display), OptionalString(coding.code))
    case None => NoOptions
  }

  /** extractChoices: without answerOption, the three default choices in
      order; with it, one choice per option, in order, taking value and label
      from the option's coding code and display, and the NoOptions sentinel
      for an option without a coding. */
  function ExtractChoices(item: Item): (r: seq<GroupItem>)
    ensures item.answerOption.None? ==>
              |r| == 3 && r[0].value == Str("Y") && r[1].value == Str("N") && r[2].value == Str("asked-unknown")
              && r[0].labelText == Str("Yes") && r[1].labelText == Str("No") && r[2].labelText == Str("Don't know")
    ensures item.answerOption.Some? ==> |r| == |item.answerOption.value|
    ensures item.answerOption.Some? ==> forall i :: 0 <= i < |r| ==>
              var option := item.answerOption.value[i];
              && (option.valueCoding.None? ==> r[i] == NoOptions)
              && (option.valueCoding.Some? ==>
                    r[i].value == OptionalString(option.valueCoding.value.code)
                    && r[i].labelText == OptionalString(option.valueCoding.value.display))
  {
    match item.answerOption
    case None => DefaultChoices
    case Some(options) => seq(|options|, i requires 0 <= i < |options| => OptionChoice(options[i]))
  }

  /** An option that has a coding yields the sentinel only if its code
      spells "NoOptions": otherwise the sentinel marks a missing coding. */
  lemma SentinelMarksMissingCodings(item: Item, i: nat)
    requires item.answerOption.Some? && i < |item.answerOption.value|
    requires item.answerOption.value[i].valueCoding.Some?
    requires item.answerOption.value[i].valueCoding.value.code != Some("NoOptions")
    ensures ExtractChoices(item)[i] != NoOptions
  {
  }
}

=== FILE: enable_when.dfy ===
/** The enableWhen evaluator: compareValues, getExpectedRuleValue, checkRule
    and checkEnableRules. */
module EnableWhen {
  import opened Wrappers
  import opened JsValues
  import opened Models
  import opened FormStore

  /** compareValues: applies `operator` to the stored value and the rule's
      expected value. A stored `undefined` never matches; equality is strict,
      inequality loose, `Exists` compares truthiness, and an unrecognised
      operator never matches. */
  predicate CompareValues(operator: Operator, value: JsValue, expected: JsValue)
    ensures value.Undefined? ==> !CompareValues(operator, value, expected)
    ensures operator.Unrecognised? ==> !CompareValues(operator, value, expected)
    ensures operator == Exists && !value.Undefined? ==>
              (CompareValues(operator, value, expected) <==> (Truthy(value) <==> Truthy(expected)))
    ensures operator == Equals ==>
              (CompareValues(operator, value, expected) <==> !value.Undefined? && value == expected)
    ensures operator == NotEquals && value == Null ==>
              (CompareValues(operator, value, expected) <==> !Nullish(expected))
    ensures operator == NotEquals && SameType(value, expected) && !value.Undefined? ==>
              (CompareValues(operator, value, expected) <==> value != expected)
    ensures value.Num? && expected.Num? ==>
              && (operator == LessThan ==> (CompareValues(operator, value, expected) <==> value.n < expected.n))
              && (operator == LessOrEquals ==> (CompareValues(operator, value, expected) <==> value.n <= expected.n))
              && (operator == GreaterThan ==> (CompareValues(operator, value, expected) <==> value.n > expected.n))
              && (operator == GreaterOrEquals ==> (CompareValues(operator, value, expected) <==> value.n >= expected.n))
  {
    if value.Undefined? then false
    else
      match operator
      case Equals => StrictEq(value, expected)
      case GreaterOrEquals => JsValues.GreaterOrEquals(value, expected)
      case GreaterThan => JsValues.GreaterThan(value, expected)
      case LessOrEquals => JsValues.LessOrEquals(value, expected)
      case LessThan => JsValues.LessThan(value, expected)
      case NotEquals => !LooseEq(value, expected)
      case Exists => if Truthy(expected) then Truthy(value) else !Truthy(value)
      case Unrecognised(_) => false
  }

  /** The first truthy value of the list, or `undefined`. */
  function FirstTruthy(vs: seq<JsValue>): (r: JsValue)
    ensures r.Undefined? || Truthy(r)
    ensures Truthy(r) ==> r in vs
    ensures r.Undefined? <==> forall i :: 0 <= i < |vs| ==> !Truthy(vs[i])
    ensures !r.Undefined? ==>
              exists i :: 0 <= i < |vs| && vs[i] == r && forall j :: 0 <= j < i ==> !Truthy(vs[j])
  {
    if |vs| == 0 then Undefined
    else if Truthy(vs[0]) then vs[0]
    else
      assert forall i :: 0 < i < |vs| ==> vs[i] == vs[1..][i - 1];
      FirstTruthy(vs[1..])
  }

  /** getExpectedRuleValue: a present answerCoding wins and gives its code;
      else an own answerBoolean property, even `false`; else the first
      truthy of answerDecimal, answerInteger, answerQuantity, answerString;
      else `undefined` (the case the source reports with console.warn). */
  function ExpectedRuleValue(rule: Rule): (r: JsValue)
    ensures rule.answerCoding.Some? ==> r == OptionalString(rule.answerCoding.value.code)
    ensures rule.answerCoding.None? && rule.answerBoolean.Some? ==> r == rule.answerBoolean.value
    ensures rule.answerCoding.None? && rule.answerBoolean.None? ==>
              r == FirstTruthy([rule.answerDecimal, rule.answerInteger, rule.answerQuantity, rule.answerString])
  {
    var candidates := [rule.answerDecimal, rule.answerInteger, rule.answerQuantity, rule.answerString];
    var afterDecimal := [rule.answerInteger, rule.answerQuantity, rule.answerString];
    var afterInteger := [rule.answerQuantity, rule.answerString];
    assert candidates[1..] == afterDecimal && afterDecimal[1..] == afterInteger;
    assert !Truthy(rule.answerDecimal) ==> FirstTruthy(candidates) == FirstTruthy(afterDecimal);
    assert !Truthy(rule.answerInteger) ==> FirstTruthy(afterDecimal) == FirstTruthy(afterInteger);
    assert afterInteger[1..] == [rule.answerString];
    assert !Truthy(rule.answerQuantity) ==> FirstTruthy(afterInteger) == FirstTruthy([rule.answerString]);
    if rule.answerCoding.Some? then OptionalString(rule.answerCoding.value.code)
    else if rule.answerBoolean.Some? then rule.answerBoolean.value
    else if Truthy(rule.answerDecimal) then rule.answerDecimal
    else if Truthy(rule.answerInteger) then rule.answerInteger
    else if Truthy(rule.answerQuantity) then rule.answerQuantity
    else if Truthy(rule.answerString) then rule.answerString
    else Undefined
  }

  /** checkRule: the rule's operator applied to the stored value of the
      question it names and to its expected value. */
  predicate CheckRule(rule: Rule, formData: Option<FormData>)
    ensures formData.Some? && rule.question in formData.value ==>
              (CheckRule(rule, formData) <==>
                 CompareValues(rule.operator, formData.value[rule.question].value, ExpectedRuleValue(rule)))
    ensures formData.None? || rule.question !in formData.value ==>
              (CheckRule(rule, formData) <==> CompareValues(rule.operator, Null, ExpectedRuleValue(rule)))
    ensures rule.operator.Unrecognised? ==> !CheckRule(rule, formData)
  {
    CompareValues(rule.operator, GetFormValue(formData, rule.question).value, ExpectedRuleValue(rule))
  }

  /** Some rule of the list holds. */
  predicate AnyRuleHolds(rules: seq<Rule>, formData: Option<FormData>)
    ensures AnyRuleHolds(rules, formData) <==> exists i :: 0 <= i < |rules| && CheckRule(rules[i], formData)
  {
    if |rules| == 0 then false
    else if CheckRule(rules[0], formData) then true
    else
      assert forall i :: 0 < i < |rules| ==> rules[i] == rules[1..][i - 1];
      AnyRuleHolds(rules[1..], formData)
  }

  /** checkEnableRules: a missing or empty rule list enables the item; a
      non-empty one enables it when at least one of its rules holds. */
  predicate CheckEnableRules(rules: Option<seq<Rule>>, formData: Option<FormData>)
    ensures rules.None? || |rules.value| == 0 ==> CheckEnableRules(rules, formData)
    ensures rules.Some? && |rules.value| > 0 ==>
              (CheckEnableRules(rules, formData) <==> exists i :: 0 <= i < |rules.value| && CheckRule(rules.value[i], formData))
  {
    rules.None? || |rules.value| == 0 || AnyRuleHolds(rules.value, formData)
  }

  /** The loop of checkEnableRules as written: rules are evaluated left to
      right and the loop stops at the first that holds. `evaluated` is how
      many rules were looked at: up to and including the first that holds,
      or all of them. */
  method CheckEnableRulesLoop(rules: Option<seq<Rule>>, formData: Option<FormData>)
    returns (enabled: bool, evaluated: nat)
    ensures enabled == CheckEnableRules(rules, formData)
    ensures rules.Some? ==> evaluated <= |rules.value|
    ensures rules.Some? ==> forall j :: 0 <= j < evaluated - 1 ==> !CheckRule(rules.value[j], formData)
    ensures rules.Some? && evaluated > 0 && enabled ==> CheckRule(rules.value[evaluated - 1], formData)
    ensures rules.Some? && !enabled ==> evaluated == |rules.value|
    ensures rules.Some? && |rules.value| > 0 ==> evaluated > 0
    ensures rules.None? ==> evaluated == 0
  {
    enabled := true;
    evaluated := 0;
    if rules.Some? && |rules.value| > 0 {
      var rs := rules.value;
      enabled := false;
      while evaluated < |rs|
        invariant evaluated <= |rs|
        invariant forall j :: 0 <= j < evaluated ==> !CheckRule(rs[j], formData)
        invariant !enabled
      {
        enabled := CheckRule(rs[evaluated], formData);
        evaluated := evaluated + 1;
        if enabled {
          break;
        }
      }
    }
  }

  /** NotEquals against a stored array (the value of a repeating choice
      question) compares the array's comma-joined form with the expected
      string, so `["Y"] != "Y"` does not hold. */
  lemma NotEqualsArrayString(elems: seq<JsValue>, s: string)
    ensures CompareValues(NotEquals, Arr(elems), Str(s)) <==> Join(elems) != s
    ensures !CompareValues(NotEquals, Arr([Str(s)]), Str(s))
  {
    LooseEqArrayString([Str(s)], s);
  }

  /** Rule lists combine by disjunction: two non-empty lists together
      enable an item exactly when either one alone does. */
  lemma {:induction false} EnableRulesConcat(r1: seq<Rule>, r2: seq<Rule>, formData: Option<FormData>)
    requires |r1| > 0 && |r2| > 0
    ensures CheckEnableRules(Some(r1 + r2), formData) <==>
              CheckEnableRules(Some(r1), formData) || CheckEnableRules(Some(r2), formData)
  {
    var rs := r1 + r2;
    if CheckEnableRules(Some(rs), formData) {
      var i :| 0 <= i < |rs| && CheckRule(rs[i], formData);
      if i < |r1| {
        assert rs[i] == r1[i];
      } else {
        assert rs[i] == r2[i - |r1|];
      }
    }
    if CheckEnableRules(Some(r1), formData) {
      var i :| 0 <= i < |r1| && CheckRule(r1[i], formData);
      assert rs[i] == r1[i];
    }
    if CheckEnableRules(Some(r2), formData) {
      var i :| 0 <= i < |r2| && CheckRule(r2[i], formData);
      assert rs[|r1| + i] == r2[i];
    }
  }

  /** A rule on a question that has no stored entry sees `null`: `Exists`
      with a truthy expected value fails and with a falsy one holds, while
      the ordering and equality operators compare `null`. */
  lemma UnansweredQuestion(rule: Rule, formData: Option<FormData>)
    requires formData.Some? ==> rule.question !in formData.value
    requires rule.operator == Exists
    ensures CheckRule(rule, formData) <==> !Truthy(ExpectedRuleValue(rule))
  {
  }

  /** An entry whose stored value is literally `undefined` makes every rule
      on it fail, even `Exists` with a falsy expected value, which a missing
      entry (read as `null`) satisfies. */
  lemma StoredUndefinedFailsEveryRule(rule: Rule, formData: FormData)
    requires rule.question in formData && formData[rule.question].value == Undefined
    ensures !CheckRule(rule, formData := Some(formData))
  {
  }

  /** NotEquals is loose: a stored `null` is not "not equal" to an expected
      `undefined`, so a rule whose expected value could not be extracted
      does not fire NotEquals on an unanswered question. */
  lemma NotEqualsNullUndefined(rule: Rule, formData: Option<FormData>)
    requires formData.Some? ==> rule.question !in formData.value
    requires rule.operator == NotEquals
    requires ExpectedRuleValue(rule) == Undefined
    ensures !CheckRule(rule, formData)
  {
  }

  /** An integer answer of 0 is falsy and is skipped: a rule whose only
      answer property is `answerInteger: 0` expects `undefined`. */
  lemma ZeroIntegerExpectsUndefined(rule: Rule)
    requires rule.answerCoding.None? && rule.answerBoolean.None?
    requires rule.answerInteger == Num(0)
    requires !Truthy(rule.answerDecimal) && !Truthy(rule.answerQuantity) && !Truthy(rule.answerString)
    ensures ExpectedRuleValue(rule) == Undefined
  {
  }
}

=== FILE: form_store.dfy ===
/** The answer store (FormData): a copy-on-write map from linkId to the
    state of one field. */
module FormStore {
  import opened Wrappers
  import opened JsValues

  /** FieldData: whether the field was edited, its value, and its validation
      error (None is `null`). */
  datatype FieldData = FieldData(touched: bool, value: JsValue, error: Option<string>)

  type FormData = map<string, FieldData>

  /** What a field reads as before anything is stored for it. */
  const Untouched := FieldData(false, Null, None)

  /** getFormValue: the stored entry, or `Untouched` when the store itself
      is missing or has no entry for `linkId`. */
  function GetFormValue(formData: Option<FormData>, linkId: string): (r: FieldData)
    ensures formData.Some? && linkId in formData.value ==> r == formData.value[linkId]
    ensures formData.None? || linkId !in formData.value ==> r == FieldData(false, Null, None)
    ensures r.touched ==> formData.Some? && linkId in formData.value
  {
    if formData.None? || linkId !in formData.value then Untouched
    else formData.value[linkId]
  }

  /** setFormValue: a new store in which `linkId` holds `newValue`, marked
      touched and with its error cleared, and every other entry is the old
      one. A missing store yields a single-entry store. */
  function SetFormValue(formData: Option<FormData>, linkId: string, newValue: JsValue): (r: FormData)
    ensures linkId in r && r[linkId] == FieldData(true, newValue, None)
    ensures formData.None? ==> r.Keys == {linkId}
    ensures formData.Some? ==> r.Keys == formData.value.Keys + {linkId}
    ensures formData.Some? ==> forall k :: k in formData.value && k != linkId ==> r[k] == formData.value[k]
  {
    if formData.Some? then formData.value[linkId := FieldData(true, newValue, None)]
    else map[linkId := FieldData(true, newValue, None)]
  }

  /** Reading back what was just stored gives it, touched and error-free;
      every other field reads exactly as before. */
  lemma GetAfterSet(formData: Option<FormData>, linkId: string, v: JsValue, other: string)
    requires other != linkId
    ensures GetFormValue(Some(SetFormValue(formData, linkId, v)), linkId) == FieldData(true, v, None)
    ensures GetFormValue(Some(SetFormValue(formData, linkId, v)), other) == GetFormValue(formData, other)
  {
  }

  /** A field that was never stored reads as untouched with value `null`,
      never `undefined`. */
  lemma AbsentFieldIsNull(formData: Option<FormData>, linkId: string)
    requires formData.Some? ==> linkId !in formData.value
    ensures GetFormValue(formData, linkId) == Untouched
    ensures GetFormValue(formData, linkId).value == Null
  {
  }

  /** Storing twice under the same key keeps only the second value. */
  lemma SetTwice(formData: Option<FormData>, linkId: string, v: JsValue, w: JsValue)
    ensures SetFormValue(Some(SetFormValue(formData, linkId, v)), linkId, w) == SetFormValue(formData, linkId, w)
  {
  }
}

=== FILE: js_arrays.dfy ===
/** The two Array.prototype methods the engine relies on, `find` and
    `filter`, over Dafny sequences. */
module JsArrays {
  import opened Wrappers

  /** Array.prototype.find: the first element satisfying `p`, if any. */
  function Find<T>(s: seq<T>, p: T -> bool): (r: Option<T>)
    ensures r.None? <==> forall i :: 0 <= i < |s| ==> !p(s[i])
    ensures r.Some? ==> exists i :: 0 <= i < |s| && s[i] == r.value && p(s[i])
                          && forall j :: 0 <= j < i ==> !p(s[j])
  {
    if |s| == 0 then None
    else if p(s[0]) then Some(s[0])
    else
      var rest := Find(s[1..], p);
      assert forall i :: 0 < i < |s| ==> s[i] == s[1..][i - 1];
      rest
  }

  /** `a` is obtained from `b` by deleting elements, keeping the rest in order. */
  predicate IsSubsequence<T(==)>(a: seq<T>, b: seq<T>) {
    if |a| == 0 then true
    else if |b| == 0 then false
    else if a[|a| - 1] == b[|b| - 1] then IsSubsequence(a[..|a| - 1], b[..|b| - 1])
    else IsSubsequence(a, b[..|b| - 1])
  }

  /** Array.prototype.filter: the elements satisfying `p`, in their original
      order, each as often as it occurs in `s`. */
  function Filter<T(==,!new)>(s: seq<T>, p: T -> bool): (r: seq<T>)
    ensures |r| <= |s|
    ensures forall x :: x in r <==> x in s && p(x)
    ensures IsSubsequence(r, s)
  {
    if |s| == 0 then []
    else
      var init := s[..|s| - 1];
      var last := s[|s| - 1];
      var prefix := Filter(init, p);
      assert s == init + [last];
      if p(last) then
        var r := prefix + [last];
        assert r[..|r| - 1] == prefix;
        r
      else
        assert prefix == [] || prefix[|prefix| - 1] != last by {
          if prefix != [] {
            assert prefix[|prefix| - 1] in prefix;
          }
        }
        prefix
  }

  /** Filtering one more element extends the filtered prefix by that element
      exactly when it passes. */
  lemma FilterSnoc<T(!new)>(s: seq<T>, x: T, p: T -> bool)
    ensures Filter(s + [x], p) == Filter(s, p) + (if p(x) then [x] else [])
  {
    assert (s + [x])[..|s|] == s;
  }

  /** Filtering keeps every passing element as often as it occurs and
      drops every other. */
  lemma {:induction false} FilterCounts<T(!new)>(s: seq<T>, p: T -> bool)
    ensures forall x :: multiset(Filter(s, p))[x] == if p(x) then multiset(s)[x] else 0
  {
    if |s| > 0 {
      var init, last := s[..|s| - 1], s[|s| - 1];
      FilterCounts(init, p);
      assert s == init + [last];
      assert multiset(s) == multiset(init) + multiset{last};
      FilterSnoc(init, last, p);
    }
  }

  /** Filtering keeps the length exactly when every element passes. */
  lemma {:induction false} FilterKeepsLength<T(!new)>(s: seq<T>, p: T -> bool)
    ensures |Filter(s, p)| == |s| <==> forall i :: 0 <= i < |s| ==> p(s[i])
  {
    if |s| > 0 {
      var init, last := s[..|s| - 1], s[|s| - 1];
      FilterKeepsLength(init, p);
      if p(last) {
        assert |Filter(s, p)| == |Filter(init, p)| + 1;
        if forall i :: 0 <= i < |init| ==> p(init[i]) {
          forall i | 0 <= i < |s|
            ensures p(s[i])
          {
            if i < |init| {
              assert s[i] == init[i];
            } else {
              assert s[i] == last;
            }
          }
        }
        if forall i :: 0 <= i < |s| ==> p(s[i]) {
          forall i | 0 <= i < |init|
            ensures p(init[i])
          {
            assert init[i] == s[i];
          }
        }
      } else {
        assert |Filter(s, p)| == |Filter(init, p)| <= |init|;
        assert !p(s[|s| - 1]);
      }
    }
  }

  /** The number of elements satisfying `p`, counted from the front. */
  function CountWhere<T>(s: seq<T>, p: T -> bool): nat {
    if |s| == 0 then 0
    else CountWhere(s[..|s| - 1], p) + (if p(s[|s| - 1]) then 1 else 0)
  }

  /** Counting the passing elements gives the length of the filtered array. */
  lemma {:induction false} CountWhereIsFilterLength<T(!new)>(s: seq<T>, p: T -> bool)
    ensures CountWhere(s, p) == |Filter(s, p)|
  {
    if |s| > 0 {
      CountWhereIsFilterLength(s[..|s| - 1], p);
    }
  }

  /** When every element passes, filtering changes nothing. */
  lemma {:induction false} FilterAllPass<T(!new)>(s: seq<T>, p: T -> bool)
    requires forall i :: 0 <= i < |s| ==> p(s[i])
    ensures Filter(s, p) == s
  {
    if |s| > 0 {
      FilterAllPass(s[..|s| - 1], p);
      assert s[..|s| - 1] + [s[|s| - 1]] == s;
    }
  }
}

=== FILE: js_numbers.dfy ===
/** Integer <-> text conversions of the JavaScript runtime, restricted to the
    integer values this model uses for numbers. */
module JsNumbers {
  import opened Wrappers

  predicate IsDigit(c: char) {
    '0' <= c <= '9'
  }

  predicate AllDigits(s: string) {
    forall i :: 0 <= i < |s| ==> IsDigit(s[i])
  }

  function DigitValue(c: char): nat
    requires IsDigit(c)
  {
    (c as int) - ('0' as int)
  }

  function DigitChar(d: nat): (c: char)
    requires d < 10
    ensures IsDigit(c) && DigitValue(c) == d
  {
    ('0' as int + d) as char
  }

  /** Number.prototype.toString for a non-negative integer below 10^21: its
      decimal spelling without leading zeros. */
  function NatToString(n: nat): (s: string)
    ensures |s| > 0 && AllDigits(s)
    ensures s[0] == '0' ==> n == 0
  {
    if n < 10 then [DigitChar(n)] else NatToString(n / 10) + [DigitChar(n % 10)]
  }

  /** Number.prototype.toString for an integer of magnitude below 10^21
      (larger numbers print in exponent form, which is not modelled). */
  function IntToString(n: int): string {
    if n < 0 then "-" + NatToString(-n) else NatToString(n)
  }

  /** The value of a string of decimal digits, most significant first. */
  function DigitsValue(s: string): nat
    requires AllDigits(s)
  {
    if |s| == 0 then 0 else DigitsValue(s[..|s| - 1]) * 10 + DigitValue(s[|s| - 1])
  }

  /** StrWhiteSpaceChar of ECMAScript's StringToNumber grammar: the
      WhiteSpace characters (TAB, VT, FF, ZWNBSP and the Zs category) and the
      LineTerminator characters (LF, CR, LS, PS). */
  predicate IsWhiteSpace(c: char) {
    || c == '\t' || c == '\n' || c == '\U{B}' || c == '\U{C}' || c == '\r'
    || c == ' ' || c == '\U{A0}' || c == '\U{1680}' || ('\U{2000}' <= c <= '\U{200A}')
    || c == '\U{2028}' || c == '\U{2029}' || c == '\U{202F}' || c == '\U{205F}'
    || c == '\U{3000}' || c == '\U{FEFF}'
  }

  function TrimStart(s: string): (t: string)
    ensures |t| <= |s|
    ensures |t| > 0 ==> !IsWhiteSpace(t[0])
  {
    if |s| > 0 && IsWhiteSpace(s[0]) then TrimStart(s[1..]) else s
  }

  function TrimEnd(s: string): (t: string)
    ensures |t| <= |s|
    ensures |t| > 0 ==> !IsWhiteSpace(t[|t| - 1])
  {
    if |s| > 0 && IsWhiteSpace(s[|s| - 1]) then TrimEnd(s[..|s| - 1]) else s
  }

  /** ECMAScript's StringToNumber over integers: surrounding white space is
      ignored, an empty or blank string is 0, an optionally signed run of
      decimal digits is its value, and every other string is NaN, written
      here as None. */
  function StringToNumber(s: string): Option<int> {
    var t := TrimEnd(TrimStart(s));
    if |t| == 0 then Some(0)
    else if (t[0] == '-' || t[0] == '+') && |t| > 1 && AllDigits(t[1..]) then
      (var magnitude: int := DigitsValue(t[1..]); if t[0] == '-' then Some(-magnitude) else Some(magnitude))
    else if AllDigits(t) then Some(DigitsValue(t))
    else None
  }

  lemma {:induction false} DigitsValueOfNatToString(n: nat)
    ensures DigitsValue(NatToString(n)) == n
  {
    if n >= 10 {
      var p := NatToString(n / 10);
      var s := p + [DigitChar(n % 10)];
      assert s[..|s| - 1] == p;
      DigitsValueOfNatToString(n / 10);
    }
  }

  lemma TrimLeavesUnpaddedString(s: string)
    requires |s| > 0 && !IsWhiteSpace(s[0]) && !IsWhiteSpace(s[|s| - 1])
    ensures TrimEnd(TrimStart(s)) == s
  {
  }

  /** Reading back a printed integer gives the integer: the decimal printer
      used for answer ids and array joins is inverted by StringToNumber. */
  lemma NumberRoundTrip(n: int)
    ensures StringToNumber(IntToString(n)) == Some(n)
  {
    var s := IntToString(n);
    if n < 0 {
      var digits := NatToString(-n);
      assert s == "-" + digits;
      assert s[1..] == digits;
      assert !IsWhiteSpace(s[|s| - 1]) by { assert s[|s| - 1] == digits[|digits| - 1]; }
      TrimLeavesUnpaddedString(s);
      DigitsValueOfNatToString(-n);
    } else {
      assert !IsWhiteSpace(s[0]) && !IsWhiteSpace(s[|s| - 1]);
      TrimLeavesUnpaddedString(s);
      assert s[0] != '-' && s[0] != '+';
      DigitsValueOfNatToString(n);
    }
  }

  /** Distinct integers print differently. */
  lemma IntToStringInjective(a: int, b: int)
    requires IntToString(a) == IntToString(b)
    ensures a == b
  {
    NumberRoundTrip(a);
    NumberRoundTrip(b);
  }
}

=== FILE: js_values.dfy ===
/** The JavaScript values that flow through the questionnaire engine, with the
    three comparisons the engine uses on them: truthiness, strict equality
    (`===`, `!==`) and loose equality (`==`, `!=`), plus the relational
    operators `<`, `>`, `<=`, `>=`. */
module JsValues {
  import opened Wrappers
  import opened JsNumbers

  /** A JavaScript value. Numbers are integers (decimal answers are held as
      integers as well); `Arr` is an array given by its elements; `Obj` is any
      other object (a Coding, a Quantity, an Attachment) known only by its
      reference. */
  datatype JsValue =
    | Undefined
    | Null
    | Bool(b: bool)
    | Num(n: int)
    | Str(s: string)
    | Arr(elems: seq<JsValue>)
    | Obj(ref: nat)

  /** `null` or `undefined`. */
  predicate Nullish(v: JsValue) {
    v.Undefined? || v.Null?
  }

  /** Arrays and plain objects: the ECMAScript type Object. */
  predicate IsObject(v: JsValue) {
    v.Arr? || v.Obj?
  }

  /** ToBoolean: what `!!v` and `if (v)` see. */
  predicate Truthy(v: JsValue) {
    match v
    case Undefined => false
    case Null => false
    case Bool(b) => b
    case Num(n) => n != 0
    case Str(s) => |s| > 0
    case Arr(_) => true
    case Obj(_) => true
  }

  /** The two values have the same ECMAScript type (arrays and objects are
      both of type Object). */
  predicate SameType(a: JsValue, b: JsValue) {
    || (a.Undefined? && b.Undefined?)
    || (a.Null? && b.Null?)
    || (a.Bool? && b.Bool?)
    || (a.Num? && b.Num?)
    || (a.Str? && b.Str?)
    || (IsObject(a) && IsObject(b))
  }

  /** IsStrictlyEqual (`===`). Objects are compared by reference; arrays by
      their contents, since the model keeps no heap. Without NaN in the
      domain it coincides with equality of values. */
  predicate StrictEq(a: JsValue, b: JsValue)
    ensures StrictEq(a, b) <==> a == b
  {
    match (a, b)
    case (Undefined, Undefined) => true
    case (Null, Null) => true
    case (Bool(x), Bool(y)) => x == y
    case (Num(x), Num(y)) => x == y
    case (Str(x), Str(y)) => x == y
    case (Arr(x), Arr(y)) => x == y
    case (Obj(x), Obj(y)) => x == y
    case _ => false
  }

  /** ToString. */
  function ToStr(v: JsValue): string
    decreases v, 1
  {
    match v
    case Undefined => "undefined"
    case Null => "null"
    case Bool(b) => if b then "true" else "false"
    case Num(n) => IntToString(n)
    case Str(s) => s
    case Arr(elems) => Join(elems)
    case Obj(_) => "[object Object]"
  }

  /** Array.prototype.join with the default "," separator, where `null` and
      `undefined` elements contribute the empty string. */
  function Join(elems: seq<JsValue>): string
    decreases elems, 0
  {
    if |elems| == 0 then ""
    else
      var first := if Nullish(elems[0]) then "" else ToStr(elems[0]);
      if |elems| == 1 then first else first + "," + Join(elems[1..])
  }

  /** ToPrimitive with hint "number": an array or plain object becomes its
      string form; a primitive is itself. */
  function ToPrimitive(v: JsValue): (p: JsValue)
    ensures !IsObject(p)
  {
    if IsObject(v) then Str(ToStr(v)) else v
  }

  /** ToNumber; None stands for NaN. */
  function ToNumber(v: JsValue): Option<int> {
    match ToPrimitive(v)
    case Undefined => None
    case Null => Some(0)
    case Bool(b) => Some(if b then 1 else 0)
    case Num(n) => Some(n)
    case Str(s) => StringToNumber(s)
    case _ => None
  }

  /** IsLooselyEqual (`==`). `null` and `undefined` equal each other and
      nothing else; same-typed values compare strictly; a string against an
      object compares the object's string form; every other mix compares
      numerically, and NaN equals nothing. */
  predicate LooseEq(a: JsValue, b: JsValue)
    ensures Nullish(a) ==> (LooseEq(a, b) <==> Nullish(b))
    ensures Nullish(b) ==> (LooseEq(a, b) <==> Nullish(a))
    ensures StrictEq(a, b) ==> LooseEq(a, b)
  {
    if SameType(a, b) then StrictEq(a, b)
    else if Nullish(a) || Nullish(b) then Nullish(a) && Nullish(b)
    else if a.Str? && IsObject(b) then a.s == ToStr(b)
    else if IsObject(a) && b.Str? then ToStr(a) == b.s
    else ToNumber(a).Some? && ToNumber(a) == ToNumber(b)
  }

  /** `a < b` on strings: lexicographic in character (code point) order, a proper prefix
      being smaller. */
  predicate StrLess(a: string, b: string) {
    if |b| == 0 then false
    else if |a| == 0 then true
    else if a[0] != b[0] then a[0] < b[0]
    else StrLess(a[1..], b[1..])
  }

  /** IsLessThan: Some(a < b), or None ("undefined") when either side
      converts to NaN. Two strings compare as strings; every other pair is
      converted to numbers. */
  function AbstractLess(a: JsValue, b: JsValue): Option<bool> {
    var pa := ToPrimitive(a);
    var pb := ToPrimitive(b);
    if pa.Str? && pb.Str? then Some(StrLess(pa.s, pb.s))
    else
      match (ToNumber(pa), ToNumber(pb))
      case (Some(x), Some(y)) => Some(x < y)
      case _ => None
  }

  /** `a < b`. */
  predicate LessThan(a: JsValue, b: JsValue) {
    AbstractLess(a, b) == Some(true)
  }

  /** `a > b`. */
  predicate GreaterThan(a: JsValue, b: JsValue) {
    AbstractLess(b, a) == Some(true)
  }

  /** `a <= b`: false when the comparison is undefined. */
  predicate LessOrEquals(a: JsValue, b: JsValue) {
    AbstractLess(b, a) == Some(false)
  }

  /** `a >= b`: false when the comparison is undefined. */
  predicate GreaterOrEquals(a: JsValue, b: JsValue) {
    AbstractLess(a, b) == Some(false)
  }

  /** Loose equality is symmetric. */
  lemma LooseEqSymmetric(a: JsValue, b: JsValue)
    ensures LooseEq(a, b) <==> LooseEq(b, a)
  {
  }

  /** A number and a string are loosely equal exactly when the string reads
      as that number; in particular a number equals its own printed form. */
  lemma LooseEqNumberString(n: int, s: string)
    ensures LooseEq(Num(n), Str(s)) <==> StringToNumber(s) == Some(n)
    ensures LooseEq(Str(s), Num(n)) <==> StringToNumber(s) == Some(n)
    ensures LooseEq(Num(n), Str(IntToString(n)))
  {
    NumberRoundTrip(n);
  }

  /** An array against a string compares its comma-joined form (the array's
      primitive value) with the string. */
  lemma LooseEqArrayString(elems: seq<JsValue>, s: string)
    ensures LooseEq(Arr(elems), Str(s)) <==> Join(elems) == s
    ensures LooseEq(Str(s), Arr(elems)) <==> Join(elems) == s
  {
  }

  /** Against anything but a nullish value or another boolean, a boolean
      compares loosely as the number 1 or 0. */
  lemma LooseEqBoolean(b: bool, v: JsValue)
    requires !Nullish(v) && !v.Bool?
    ensures LooseEq(Bool(b), v) <==> LooseEq(Num(if b then 1 else 0), v)
  {
  }

  /** On two numbers the relational operators are integer comparison. */
  lemma NumberOrdering(x: int, y: int)
    ensures LessThan(Num(x), Num(y)) <==> x < y
    ensures GreaterThan(Num(x), Num(y)) <==> x > y
    ensures LessOrEquals(Num(x), Num(y)) <==> x <= y
    ensures GreaterOrEquals(Num(x), Num(y)) <==> x >= y
  {
  }

  /** On two strings the relational operators are lexicographic. */
  lemma StringOrdering(x: string, y: string)
    ensures LessThan(Str(x), Str(y)) <==> StrLess(x, y)
    ensures GreaterThan(Str(x), Str(y)) <==> StrLess(y, x)
    ensures LessOrEquals(Str(x), Str(y)) <==> !StrLess(y, x)
    ensures GreaterOrEquals(Str(x), Str(y)) <==> !StrLess(x, y)
  {
  }

  /** `undefined` converts to NaN, so it is ordered against nothing, while
      `null` orders exactly like the number 0. */
  lemma NullishOrdering(v: JsValue)
    ensures !LessThan(Undefined, v) && !GreaterThan(Undefined, v)
    ensures !LessOrEquals(Undefined, v) && !GreaterOrEquals(Undefined, v)
    ensures AbstractLess(Null, v) == AbstractLess(Num(0), v)
  {
  }

  /** Where a comparison is defined, `>=` is the negation of `<` and `<=` the
      negation of `>`; where it is not, all four operators are false. */
  lemma OrderingDuality(a: JsValue, b: JsValue)
    ensures AbstractLess(a, b).Some? ==> (GreaterOrEquals(a, b) <==> !LessThan(a, b))
    ensures AbstractLess(b, a).Some? ==> (LessOrEquals(a, b) <==> !GreaterThan(a, b))
    ensures AbstractLess(a, b).None? ==> !LessThan(a, b) && !GreaterOrEquals(a, b)
  {
  }

  lemma {:induction false} StrLessIrreflexive(s: string)
    ensures !StrLess(s, s)
  {
    if |s| > 0 {
      StrLessIrreflexive(s[1..]);
    }
  }

  /** A value is neither below nor above itself, but `<=` and `>=` of a value
      with itself hold exactly when it does not convert to NaN. */
  lemma SelfComparison(v: JsValue)
    ensures !LessThan(v, v) && !GreaterThan(v, v)
    ensures GreaterOrEquals(v, v) <==> AbstractLess(v, v).Some?
  {
    if ToPrimitive(v).Str? {
      StrLessIrreflexive(ToPrimitive(v).s);
    }
  }
}

=== FILE: labels.dfy ===
/** getLabel: the text shown above a question. */
module Labels {
  import opened Wrappers
  import opened Models

  /** What one coding contributes to a label: its display, else its code,
      else nothing (empty strings count as missing). */
  function CodeLabel(c: Coding): (r: Option<string>)
    ensures r.Some? ==> |r.value| > 0
    ensures r.Some? ==> r == c.display || r == c.code
    ensures TruthyString(c.display) ==> r == c.display
    ensures r.None? <==> !TruthyString(c.display) && !TruthyString(c.code)
  {
    if TruthyString(c.display) then c.display
    else if TruthyString(c.code) then c.code
    else None
  }

  /** The contributions of a list of codings, in order. */
  function LabelParts(codes: seq<Coding>): (parts: seq<string>)
    ensures forall i :: 0 <= i < |parts| ==> |parts[i]| > 0
    ensures |parts| <= |codes|
  {
    if |codes| == 0 then []
    else
      var last := CodeLabel(codes[|codes| - 1]);
      LabelParts(codes[..|codes| - 1]) + (if last.Some? then [last.value] else [])
  }

  /** The parts separated by ", ". */
  function JoinComma(parts: seq<string>): string {
    if |parts| == 0 then ""
    else if |parts| == 1 then parts[0]
    else JoinComma(parts[..|parts| - 1]) + ", " + parts[|parts| - 1]
  }

  lemma JoinCommaSnoc(parts: seq<string>, part: string)
    ensures JoinComma(parts + [part]) == if |parts| == 0 then part else JoinComma(parts) + ", " + part
  {
    assert (parts + [part])[..|parts|] == parts;
  }

  /** One more coding either leaves the label alone or appends its
      contribution, after ", " unless the label was empty. */
  lemma LabelStep(codes: seq<Coding>, i: nat)
    requires i < |codes|
    ensures var before, after := LabelParts(codes[..i]), LabelParts(codes[..i + 1]);
            && (CodeLabel(codes[i]).None? ==> after == before)
            && (CodeLabel(codes[i]).Some? ==>
                  && |after| > 0
                  && JoinComma(after) == (if |before| == 0 then CodeLabel(codes[i]).value
                                          else JoinComma(before) + ", " + CodeLabel(codes[i]).value))
  {
    assert codes[..i + 1][..i] == codes[..i];
    var part := CodeLabel(codes[i]);
    if part.Some? {
      JoinCommaSnoc(LabelParts(codes[..i]), part.value);
    }
  }

  /** `if (label) label += ", "; label += part;` */
  function AppendPart(text: string, part: string): string {
    (if text != "" then text + ", " else text) + part
  }

  /** The accumulating loop of getLabel: each coding with a display or code
      adds it, preceded by ", " unless the label is still empty. */
  method JoinCodeLabels(codes: seq<Coding>) returns (acc: string)
    ensures acc == JoinComma(LabelParts(codes))
    ensures acc == "" <==> |LabelParts(codes)| == 0
  {
    acc := "";
    for i := 0 to |codes|
      invariant acc == JoinComma(LabelParts(codes[..i]))
      invariant acc == "" <==> |LabelParts(codes[..i])| == 0
    {
      LabelStep(codes, i);
      var part := CodeLabel(codes[i]);
      if part.Some? {
        acc := AppendPart(acc, part.value);
      }
    }
    assert codes[..|codes|] == codes;
  }

  /** getLabel: a non-empty text wins; otherwise the codings' displays (or
      codes) joined by ", "; otherwise a non-empty linkId; otherwise no
      label. */
  method GetLabel(item: Item) returns (r: Option<string>)
    ensures TruthyString(item.text) ==> r == item.text
    ensures !TruthyString(item.text) && item.code.Some? && |LabelParts(item.code.value)| > 0 ==>
              r == Some(JoinComma(LabelParts(item.code.value)))
    ensures !TruthyString(item.text) && (item.code.None? || |LabelParts(item.code.value)| == 0) ==>
              r == (if |item.linkId| > 0 then Some(item.linkId) else None)
    ensures r.Some? ==> |r.value| > 0
  {
    if TruthyString(item.text) {
      return item.text;
    }
    if item.code.Some? && |item.code.value| > 0 {
      var joined := JoinCodeLabels(item.code.value);
      if joined != "" {
        return Some(joined);
      }
    }
    if |item.linkId| > 0 {
      return Some(item.linkId);
    }
    return None;
  }
}

=== FILE: models.dfy ===
/** The parts of the FHIR Questionnaire resource the engine reads. A JSON
    property that may be missing is an `Option`; a property the code only
    tests for truthiness or compares is a `JsValue`, whose `Undefined`
    stands for "missing". */
module Models {
  import opened Wrappers
  import opened JsValues

  datatype Coding = Coding(code: Option<string>, display: Option<string>)

  datatype CodeableConcept = CodeableConcept(coding: Option<seq<Coding>>)

  datatype Extension = Extension(
    url: Option<string>,
    valueUri: Option<string>,
    valueCodeableConcept: Option<CodeableConcept>)

  datatype AnswerOption = AnswerOption(valueCoding: Option<Coding>)

  /** QuestionnaireItemOperator; any other operator string is `Unrecognised`. */
  datatype Operator =
    | Exists
    | Equals
    | NotEquals
    | GreaterThan
    | LessThan
    | GreaterOrEquals
    | LessOrEquals
    | Unrecognised(raw: string)

  /** An enableWhen entry. `answerBoolean` is None when the rule has no own
      property of that name (it is tested with hasOwnProperty, so a present
      but undefined property is `Some(Undefined)`); the other answer
      properties are tested for truthiness. */
  datatype Rule = Rule(
    question: string,
    operator: Operator,
    answerBoolean: Option<JsValue>,
    answerDecimal: JsValue,
    answerInteger: JsValue,
    answerString: JsValue,
    answerCoding: Option<Coding>,
    answerQuantity: JsValue)

  /** QuestionnaireItemType; a type tag the engine does not list (FHIR's
      "text", for one) is `OtherType`. */
  datatype ItemType =
    | Group
    | Display
    | Question
    | Boolean
    | Decimal
    | Integer
    | Date
    | DateTime
    | Time
    | String
    | Url
    | Choice
    | OpenChoice
    | Attachment
    | Reference
    | Quantity
    | OtherType(tag: string)

  /** Group, Question and Display carry their children inside a synthetic
      answer rather than a typed value. */
  predicate IsStructural(t: ItemType) {
    t == Group || t == Question || t == Display
  }

  /** An item's child list, which may be missing. (A dedicated datatype
      rather than an Option, so that recursion over the tree terminates.) */
  datatype Children = Absent | Present(items: seq<Item>)

  datatype Item = Item(
    linkId: string,
    id: Option<string>,
    definition: Option<string>,
    text: Option<string>,
    code: Option<seq<Coding>>,
    itemType: ItemType,
    repeats: bool,
    enableWhen: Option<seq<Rule>>,
    answerOption: Option<seq<AnswerOption>>,
    extension: Option<seq<Extension>>,
    item: Children)

  datatype Questionnaire = Questionnaire(id: Option<string>, item: Option<seq<Item>>)

  /** A string property as a JavaScript value. */
  function OptionalString(s: Option<string>): JsValue {
    match s
    case None => Undefined
    case Some(t) => Str(t)
  }

  /** A string property tested with `if (...)`: present and non-empty. */
  predicate TruthyString(s: Option<string>) {
    s.Some? && |s.value| > 0
  }
}

=== FILE: response_builder.dfy ===
/** getResponse, getResponseItems and getResponseItemAnswers: the
    QuestionnaireResponse built from a questionnaire and the answer store. */
module ResponseBuilder {
  import opened Wrappers
  import opened JsNumbers
  import opened JsValues
  import opened Models
  import opened FormStore

  /** QuestionnaireResponseStatus; the builder only produces InProgress. */
  datatype Status = InProgress | Completed | Amended | EnteredInError | Stopped

  /** The property of an answer that carries its value. */
  datatype ValueProp =
    | ValueBoolean
    | ValueDecimal
    | ValueInteger
    | ValueDate
    | ValueDateTime
    | ValueTime
    | ValueString
    | ValueUri
    | ValueAttachment
    | ValueCoding
    | ValueQuantity
    | ValueReference

  /** An answer holds either one typed value or, for a structural item, the
      response items of its children. */
  datatype AnswerContent = Typed(prop: ValueProp, value: JsValue) | Nested(item: seq<ResponseItem>)

  datatype Answer = Answer(id: string, extension: seq<Extension>, content: AnswerContent)

  datatype ResponseItem = ResponseItem(
    id: Option<string>,
    linkId: string,
    definition: Option<string>,
    text: Option<string>,
    extension: Option<seq<Extension>>,
    answer: seq<Answer>,
    item: seq<ResponseItem>)

  datatype Response = Response(
    resourceType: string,
    status: Status,
    questionnaire: Questionnaire,
    item: seq<ResponseItem>)

  /** The TypeErrors the builder can throw: calling forEach on the missing
      children of a structural item, or on the stored value of a repeating
      item when that value is not an array. */
  datatype BuildError = ChildrenMissing(linkId: string) | NotIterable(linkId: string, value: JsValue)

  /** The value property of an item type; None for the structural types and
      for every type the switch does not list. */
  function ValuePropOf(t: ItemType): (r: Option<ValueProp>)
    ensures IsStructural(t) || t.OtherType? ==> r.None?
    ensures r.None? ==> IsStructural(t) || t.OtherType?
    ensures t == Choice || t == OpenChoice ==> r == Some(ValueCoding)
    ensures t == Url ==> r == Some(ValueUri)
  {
    match t
    case Boolean => Some(ValueBoolean)
    case Decimal => Some(ValueDecimal)
    case Integer => Some(ValueInteger)
    case Date => Some(ValueDate)
    case DateTime => Some(ValueDateTime)
    case Time => Some(ValueTime)
    case String => Some(ValueString)
    case Url => Some(ValueUri)
    case Attachment => Some(ValueAttachment)
    case Choice => Some(ValueCoding)
    case OpenChoice => Some(ValueCoding)
    case Quantity => Some(ValueQuantity)
    case Reference => Some(ValueReference)
    case _ => None
  }

  /** The loop over a repeating item's values: each value becomes an answer
      whose id is the running counter, starting at `first`. */
  function NumberedAnswers(prop: ValueProp, values: seq<JsValue>, first: nat): (r: seq<Answer>)
    ensures |r| == |values|
    ensures forall i :: 0 <= i < |r| ==>
              r[i].id == NatToString(first + i) && r[i].extension == [] && r[i].content == Typed(prop, values[i])
  {
    if |values| == 0 then []
    else [Answer(NatToString(first), [], Typed(prop, values[0]))] + NumberedAnswers(prop, values[1..], first + 1)
  }

  /** The value getResponseItemAnswers reads for an item. */
  function StoredValue(item: Item, formData: Option<FormData>): JsValue {
    GetFormValue(formData, item.linkId).value
  }

  /** getResponseItemAnswers: a structural item gets exactly one answer, id
      "1", holding its children's response items (and the call throws when
      it has no child list); a typed item with no stored value gets none; a
      repeating typed item gets one answer per element of its stored array,
      numbered from "1" in array order (and throws when the stored value is
      not an array); any other typed item gets a single answer with id "1";
      an unlisted type gets none. */
  function ResponseItemAnswers(item: Item, formData: Option<FormData>): (r: Result<seq<Answer>, BuildError>)
    ensures IsStructural(item.itemType) && r.Ok? ==>
              && item.item.Present?
              && |r.value| == 1 && r.value[0].id == "1" && r.value[0].extension == []
              && r.value[0].content.Nested?
              && ResponseItems(item.item.items, formData) == Ok(r.value[0].content.item)
    ensures IsStructural(item.itemType) ==>
              (r.Err? <==> item.item.Absent? || ResponseItems(item.item.items, formData).Err?)
    ensures item.itemType.OtherType? ==> r == Ok([])
    ensures ValuePropOf(item.itemType).Some? && Nullish(StoredValue(item, formData)) ==> r == Ok([])
    ensures ValuePropOf(item.itemType).Some? && !Nullish(StoredValue(item, formData)) && item.repeats ==>
              match StoredValue(item, formData)
              case Arr(values) =>
                && r.Ok? && |r.value| == |values|
                && forall i :: 0 <= i < |values| ==>
                     r.value[i] == Answer(NatToString(i + 1), [], Typed(ValuePropOf(item.itemType).value, values[i]))
              case other => r == Err(NotIterable(item.linkId, other))
    ensures ValuePropOf(item.itemType).Some? && !Nullish(StoredValue(item, formData)) && !item.repeats ==>
              r == Ok([Answer("1", [], Typed(ValuePropOf(item.itemType).value, StoredValue(item, formData)))])
    decreases item
  {
    if IsStructural(item.itemType) then
      if item.item.Absent? then Err(ChildrenMissing(item.linkId))
      else
        match ResponseItems(item.item.items, formData)
        case Err(e) => Err(e)
        case Ok(nested) => Ok([Answer("1", [], Nested(nested))])
    else
      var value := StoredValue(item, formData);
      match ValuePropOf(item.itemType)
      case None => Ok([])
      case Some(prop) =>
        if LooseEq(value, Null) then Ok([])
        else if item.repeats then
          if value.Arr? then Ok(NumberedAnswers(prop, value.elems, 1))
          else Err(NotIterable(item.linkId, value))
        else Ok([Answer("1", [], Typed(prop, value))])
  }

  /** Whether getResponseItems descends into an item's children for the
      response item's own `item` list. */
  predicate DescendsIntoChildren(item: Item) {
    !IsStructural(item.itemType) && item.item.Present? && |item.item.items| > 0
  }

  /** getResponseItems: one response item per source item, in order, with
      the same linkId, and id, definition, text and extension copied; its
      answers are the item's answers; its own `item` list holds the
      children's response items only for a non-structural item with a
      non-empty child list, and is empty otherwise. */
  function ResponseItems(items: seq<Item>, formData: Option<FormData>): (r: Result<seq<ResponseItem>, BuildError>)
    ensures r.Ok? ==> |r.value| == |items|
    ensures r.Ok? ==> forall i :: 0 <= i < |items| ==>
              && r.value[i].linkId == items[i].linkId
              && r.value[i].id == items[i].id
              && r.value[i].definition == items[i].definition
              && r.value[i].text == items[i].text
              && r.value[i].extension == items[i].extension
              && ResponseItemAnswers(items[i], formData) == Ok(r.value[i].answer)
              && (DescendsIntoChildren(items[i]) ==> ResponseItems(items[i].item.items, formData) == Ok(r.value[i].item))
              && (!DescendsIntoChildren(items[i]) ==> r.value[i].item == [])
    decreases items
  {
    if |items| == 0 then Ok([])
    else
      var it := items[0];
      match ResponseItemAnswers(it, formData)
      case Err(e) => Err(e)
      case Ok(answers) =>
        var nested := if DescendsIntoChildren(it) then ResponseItems(it.item.items, formData) else Ok([]);
        match nested
        case Err(e) => Err(e)
        case Ok(children) =>
          match ResponseItems(items[1..], formData)
          case Err(e) => Err(e)
          case Ok(rest) =>
            var head := ResponseItem(it.id, it.linkId, it.definition, it.text, it.extension, answers, children);
            assert forall i :: 0 < i < |items| ==> items[i] == items[1..][i - 1];
            Ok([head] + rest)
  }

  /** getResponse: the envelope around the response items of the
      questionnaire's top-level items (none when it has no item list). */
  function GetResponse(questionnaire: Questionnaire, formData: Option<FormData>): (r: Result<Response, BuildError>)
    ensures r.Ok? ==> r.value.resourceType == "QuestionnaireResponse" && r.value.status == InProgress
    ensures r.Ok? ==> r.value.questionnaire == questionnaire
    ensures questionnaire.item.None? ==> r.Ok? && r.value.item == []
    ensures questionnaire.item.Some? && r.Ok? ==>
              |r.value.item| == |questionnaire.item.value|
              && forall i :: 0 <= i < |r.value.item| ==> r.value.item[i].linkId == questionnaire.item.value[i].linkId
    ensures var items := if questionnaire.item.Some? then questionnaire.item.value else [];
            && (r.Ok? <==> ResponseItems(items, formData).Ok?)
            && (r.Ok? ==> r.value.item == ResponseItems(items, formData).value)
  {
    var items := if questionnaire.item.Some? then questionnaire.item.value else [];
    match ResponseItems(items, formData)
    case Err(e) => Err(e)
    case Ok(responseItems) => Ok(Response("QuestionnaireResponse", InProgress, questionnaire, responseItems))
  }

  /** The conditions under which building the answers of one item does not
      throw, children aside: a structural item has a child list, and a
      repeating typed item with a stored value stores an array. */
  predicate AnswersDoNotThrow(item: Item, formData: Option<FormData>) {
    && (IsStructural(item.itemType) ==> item.item.Present?)
    && (ValuePropOf(item.itemType).Some? && item.repeats && !Nullish(StoredValue(item, formData)) ==>
          StoredValue(item, formData).Arr?)
  }

  /** Every item of the subtree meets AnswersDoNotThrow. */
  predicate Buildable(item: Item, formData: Option<FormData>)
    decreases item
  {
    && AnswersDoNotThrow(item, formData)
    && (item.item.Present? ==> forall c :: c in item.item.items ==> Buildable(c, formData))
  }

  /** getResponseItems throws exactly when some item in the trees it walks
      is not buildable. */
  lemma {:induction false} ResponseItemsSucceed(items: seq<Item>, formData: Option<FormData>)
    ensures ResponseItems(items, formData).Ok? <==> forall i :: 0 <= i < |items| ==> Buildable(items[i], formData)
    decreases items
  {
    if |items| > 0 {
      var it := items[0];
      ItemSucceeds(it, formData);
      ResponseItemsSucceed(items[1..], formData);
      assert forall i :: 0 < i < |items| ==> items[i] == items[1..][i - 1];
      if it.item.Present? {
        ResponseItemsSucceed(it.item.items, formData);
        assert (forall c :: c in it.item.items ==> Buildable(c, formData))
          <==> (forall i :: 0 <= i < |it.item.items| ==> Buildable(it.item.items[i], formData));
      }
    }
  }

  /** The answers of one item are built without throwing exactly when its
      own conditions hold and, for a structural item, its whole subtree is
      buildable. */
  lemma {:induction false} ItemSucceeds(item: Item, formData: Option<FormData>)
    ensures ResponseItemAnswers(item, formData).Ok? <==>
              AnswersDoNotThrow(item, formData)
              && (IsStructural(item.itemType) ==> forall c :: c in item.item.items ==> Buildable(c, formData))
    decreases item
  {
    if IsStructural(item.itemType) && item.item.Present? {
      var children := item.item.items;
      ResponseItemsSucceed(children, formData);
      assert (forall c :: c in children ==> Buildable(c, formData))
        <==> (forall i :: 0 <= i < |children| ==> Buildable(children[i], formData));
    }
  }

  /** getResponse throws exactly when some top-level item tree is not
      buildable. */
  lemma GetResponseSucceeds(questionnaire: Questionnaire, formData: Option<FormData>)
    requires questionnaire.item.Some?
    ensures GetResponse(questionnaire, formData).Ok? <==>
              forall i :: 0 <= i < |questionnaire.item.value| ==> Buildable(questionnaire.item.value[i], formData)
  {
    ResponseItemsSucceed(questionnaire.item.value, formData);
  }

  /** Answer ids read back as the 1-based position of the answer. */
  lemma AnswerIdsArePositions(item: Item, formData: Option<FormData>, i: nat)
    requires ValuePropOf(item.itemType).Some? && item.repeats
    requires StoredValue(item, formData).Arr? && i < |StoredValue(item, formData).elems|
    ensures ResponseItemAnswers(item, formData).Ok?
    ensures StringToNumber(ResponseItemAnswers(item, formData).value[i].id) == Some(i + 1)
  {
    NumberRoundTrip(i + 1);
  }
}

=== FILE: wrappers.dfy ===
/** Failure-compatible wrappers shared by the whole model. */
module Wrappers {

  /** A value that may be absent: a missing JSON property or an optional field. */
  datatype Option<+T> = None | Some(value: T)

  /** The outcome of an operation that can throw: `Err` stands for the exception. */
  datatype Result<+T, +E> = Ok(value: T) | Err(error: E)
}
